=== FILE: README.md ===
# Image gallery: grid layout and gallery state

This project models the logic of a small desktop image gallery. The user picks
image files. The gallery shows them as thumbnails in a three-column grid.
Clicking a thumbnail opens a large view of that image. The selected list can
be saved to a file and is reloaded at the next start.

The widgets are abstracted away. What remains is:

- **`Grid`** (`grid.dfy`): the render loop of `display_images`. It walks the
  ordered path list with a hand-kept `row`/`col` pair of counters. The column
  wraps at `MaxColumns = 3`. Each path becomes a `Cell(pos, path)`, where
  `path` is the argument a click on that thumbnail passes to the detail
  viewer. `DisplayImages` mirrors the counter loop. Its loop invariant ties the
  counters to `PositionOf(index) = (index / 3, index % 3)`. `Click` is the
  lookup a primary click performs. The fixed sizes 220×135 and 800×600 appear
  as constants.
- **Opening an image** is an input, `probe: Path -> ImageStatus`. An image
  opens (`Readable`), raises file-not-found (`Missing`), or raises any other
  error (`Unreadable`). The render opens each image before creating its
  thumbnail, so the first image that does not open ends the render. The
  thumbnails created before it stay on screen (`FirstFailure`, `Rendered`,
  `Raised`).
- **`ImageViewer`** (`viewer.dfy`): the window's state. A `Viewer` holds the
  ordered list `images` and the `grid` on screen. The persisted file is a
  `Store = Option<seq<Path>>`, where `None` means no file exists. The
  transitions are `Initial`, `OpenImages`, `SaveImages`, `LoadSavedImages` and
  `Startup`. An `App` is either a running window with the store, or no
  process after a launch failed. `Step` and `Run` replay a sequence of user
  events. `Restart` models the process exiting and being launched again: the
  list in memory is lost and the store survives.
- **`Wrappers`** (`wrappers.dfy`): the `Option` type.

Two invariants describe the grid. `ShowsPrefix` says the grid on screen is
the rendering of an initial segment of the current list, so no stale
thumbnail ever survives a re-render. It holds after every event. `Consistent`
says the grid is the rendering of the whole list. A pick whose paths all
open, or a restart whose saved images all open, establishes it. A save, a
click or a cancelled pick keeps it when it held before. When an image fails to open, the list is
still replaced, because the code assigns it before rendering, but the grid
stops short. At startup a missing image raises file-not-found inside the same
`try` as a missing store file, so it is swallowed too. Any other error at
startup escapes the window's construction.

## Model

| member | source | states |
|---|---|---|
| `Grid.PositionOf` | main.py:60-62 | the position of list index i has column below 3 and decomposes i as row * 3 + col |
| `Grid.PositionIndexRoundTrip` | main.py:83-86 | position and index convert both ways: every position with column below 3 is the position of the index row * 3 + col, and every index is recovered from its position |
| `Grid.PositionOfInjective` | main.py:73 | two list indices share a grid position if and only if they are equal |
| `Grid.RowMajorOrder` | main.py:83-86 | index i comes before index j exactly when i's cell comes before j's in row-major reading order |
| `Grid.AdvanceIsNextIndex` | main.py:83-86 | one counter update (col + 1, wrapping to col 0 of the next row at 3) moves from the position of i to the position of i + 1 |
| `Grid.FirstFailure` | main.py:64-66 | the index at which the render stops: every earlier image opens, and the image at that index, if any, does not |
| `Grid.RenderedCompleteIffReadable` | main.py:64-73 | a render shows the whole layout, and raises nothing, exactly when every image opens; a raised error is never a success |
| `Grid.DisplayImages` | main.py:54-86 | the counter loop, ignoring the old frame, yields the cells of an initial segment of the list in list order; cell i holds paths[i] at row i / 3 and column i % 3 below 3; it stops at the first image that does not open and raises that image's error; it covers the whole list exactly when every image opens |
| `Grid.Click` | main.py:80 | a click yields a path only if some cell sits at the clicked position with that path, and yields nothing exactly when no cell sits there |
| `Grid.ClickOpensOwnPath` | main.py:64-80 | clicking the thumbnail of index i yields paths[i], the path bound in that iteration |
| `Grid.ClickOutsideGrid` | main.py:73-80 | a click at a column of 3 or more, or past the last thumbnail, yields nothing |
| `Grid.RowOccupancy` | main.py:62-86 | every full row holds exactly 3 thumbnails, the last row holds the remainder, and rows beyond hold none |
| `ImageViewer.Display` | main.py:54-57 | re-rendering keeps the list, leaves no stale cell, shows the thumbnails up to the first image that does not open, and equals the full rendering exactly when every image opens |
| `ImageViewer.DisplayIdempotent` | main.py:55-57 | rendering twice equals rendering once; when every image opens, a viewer is unchanged by re-rendering exactly when it is consistent |
| `ImageViewer.Initial` | main.py:16 | the window starts with an empty list and an empty grid, which is consistent |
| `ImageViewer.OpenImages` | main.py:47-52 | a non-empty picker result becomes the list, in picker order, even when its render fails; the grid shows no stale cell and is complete exactly when every picked image opens; the grid holds exactly the cells before the first picked image that does not open; an empty result changes neither list nor grid |
| `ImageViewer.SaveImages` | main.py:136-139 | after a save the store exists and holds the list on screen, in order; its partners `SaveLoadRoundTrip` and `LoadAfterSave` show that loading it gives that list back |
| `ImageViewer.LoadSavedImages` | main.py:142-150 | a missing store file leaves the viewer as it was; a saved list becomes the list and is rendered up to the first image that does not open; the load fails exactly when that image raises an error other than file-not-found |
| `ImageViewer.Startup` | main.py:15-45 | with no saved file the window starts empty; any window that comes up shows no stale cell; with a saved list, construction fails exactly when its render raises an error other than file-not-found, and otherwise the window holds the saved list with the cells before its first image that does not open; when every saved image opens, it comes up with the saved list fully rendered |
| `ImageViewer.MissingImageAtStartup` | main.py:142-150 | a saved image that is missing at startup is swallowed: the whole saved list is kept and only the thumbnails before it are shown |
| `ImageViewer.DeletedImageScenario` | main.py:144-150 | a saved list a.png, gone.png, c.png with gone.png deleted starts with all three paths, shows only a.png's cell, and raises nothing |
| `ImageViewer.UnreadableImageAtStartup` | main.py:144-150 | a saved image that raises any error other than file-not-found at startup makes the window's construction fail |
| `ImageViewer.SaveLoadRoundTrip` | main.py:136-150 | starting up from what a save wrote restores exactly the saved list, in order, and renders it fully when every image opens |
| `ImageViewer.LoadAfterSave` | main.py:136-150 | a successful load after a save yields the saved list, rendered, whatever list the loading viewer held before |
| `ImageViewer.Launch` | main.py:157-158 | a launch keeps the store; with no store it shows an empty window; a window launched from a saved list holds that list and the cells before its first image that does not open; the launch fails exactly when the saved list's render raises an error other than file-not-found |
| `ImageViewer.Step` | main.py:30-52 | the buttons and the click binding wired to the state: only a save changes the store, and it stores the list on screen; a click changes nothing; a pick on a running window applies the picker result; a restart launches from the store; with no window only a restart acts |
| `ImageViewer.StepKeepsSound` | main.py:47-57 | picking, saving, clicking and restarting each leave no stale cell on screen |
| `ImageViewer.RunKeepsSound` | main.py:47-86 | from a window with no stale cell, no sequence of events ever shows one |
| `ImageViewer.StepKeepsConsistent` | main.py:47-57 | when every image the event renders opens (the picked paths, or the saved list on a restart), the event keeps the window up and its grid equal to the rendering of the whole list |
| `ImageViewer.RunKeepsConsistent` | main.py:47-86 | when every image each event renders opens, judged in the state that event meets, every sequence of events ends with the window up and a consistent grid |
| `ImageViewer.SaveThenRestartRestores` | main.py:136-150 | after any history with a window up, a save followed by a restart stores and brings back exactly the list that was shown, fully rendered when every image opens |
| `ImageViewer.ClicksChangeNothing` | main.py:96-115 | any number of clicks leave the list, the grid and the store unchanged; this comes from modelling a click as opening only an independent detail window, since show_large_image touches neither image_files nor image_frame, and is not derived from a model of that window |
| `ImageViewer.ClickShowsSelectedImage` | main.py:80 | in a window with no stale cell, a click on the thumbnail of index i opens images[i] and changes no state |
| `ImageViewer.FourImagesScenario` | main.py:47-86 | picking four openable paths places them at (0,0), (0,1), (0,2), (1,0); a click at (1,0) opens the fourth path and leaves the grid unchanged |
| `ImageViewer.CancelledPickChangesNothing` | main.py:50 | a cancelled picker leaves the whole application state unchanged |

## Left out

- Window, frames, buttons, fonts, colours and `place` coordinates (main.py:9-39): UI scaffolding with no behaviour to state.
- Hover highlighting (`on_hover`, `on_leave`, main.py:88-94): widget configuration calls only.
- The detail window (`show_large_image`, main.py:96-115): it is a new top-level window plus an image resize. The model records only which path a click hands to it (`Click`, `DetailOf`). That a click changes no gallery state is part of the model's definition of `Step`, not a consequence of modelling the window. An image that fails to open in the detail view is not modelled.
- Image decoding and resizing (main.py:66-68, 98-100): foreign image-library calls. Only the fixed sizes appear, as constants.
- The QR badge (`generate_qr_code`, main.py:117-134): a foreign library call on a constant URL.
- The pickle encoding and the file I/O (main.py:138-139, 145-146): the store is modelled abstractly as the last saved list or `None`. The byte format is not modelled.
- The confirmation line printed after a save (main.py:140): console output.
- Failures other than an image that does not open: a corrupt store raises at main.py:146, and a failed write raises at main.py:138-139. The model has no representation for them and does not invent a fail-soft behaviour. Store contents other than a list of paths, such as a pickled string or tuple, are outside the model's `Store` type.
- Where a picker-driven render raises, the model records only the state it leaves: the new list and the partial grid. The error report that the toolkit prints for a failed callback is not modelled.
- `exit_application` and the event loop (main.py:152-159): process plumbing. `Restart` in the event model stands for exiting and launching again.
- The file-type filter of the picker (main.py:49): the picker is an external dialog, and its answer is an input.

=== FILE: grid.dfy ===
/**
 The thumbnail grid of the gallery window: every path of the gallery list gets
 one thumbnail cell, placed row-major into a grid of `MaxColumns` columns, and
 each cell's click target is its own path. Widgets, pixels and fonts are
 abstracted away; a cell records only its grid position and the path a click on
 it hands to the detail viewer.
 */
module Grid {
  import opened Wrappers

  /** Number of thumbnails per grid row. */
  const MaxColumns: nat := 3

  /** Fixed thumbnail size in the grid. */
  const ThumbnailWidth: nat := 220
  const ThumbnailHeight: nat := 135

  /** Fixed size of the detail window and of the image shown in it. */
  const DetailWidth: nat := 800
  const DetailHeight: nat := 600

  /** A filesystem path to an image, as returned by the file picker. */
  type Path = string

  /** A zero-based grid position. */
  datatype Position = Position(row: nat, col: nat)

  /** One rendered thumbnail: where it sits and the path a click on it opens. */
  datatype Cell = Cell(pos: Position, path: Path)

  /** The position of the thumbnail for list index `index`. */
  function PositionOf(index: nat): (p: Position)
    ensures p.col < MaxColumns
    ensures p.row * MaxColumns + p.col == index
  {
    Position(index / MaxColumns, index % MaxColumns)
  }

  /** The list index whose thumbnail sits at `p` (inverse of `PositionOf`). */
  function IndexOf(p: Position): (i: nat)
  {
    p.row * MaxColumns + p.col
  }

  /** `PositionOf` and `IndexOf` are inverse: every in-range position is the
      position of exactly the index it encodes, and every index is recovered
      from its position. */
  lemma PositionIndexRoundTrip(p: Position, i: nat)
    requires p.col < MaxColumns
    ensures PositionOf(IndexOf(p)) == p
    ensures IndexOf(PositionOf(i)) == i
  {
  }

  /** Distinct list indices never share a grid position. */
  lemma PositionOfInjective(i: nat, j: nat)
    ensures PositionOf(i) == PositionOf(j) <==> i == j
  {
  }

  /** Row-major order on grid positions. */
  predicate Before(p: Position, q: Position)
  {
    p.row < q.row || (p.row == q.row && p.col < q.col)
  }

  /** The grid is filled row-major: list order is exactly reading order. */
  lemma RowMajorOrder(i: nat, j: nat)
    ensures i < j <==> Before(PositionOf(i), PositionOf(j))
  {
  }

  /** One step of the hand-kept counters: the column moves right and wraps to
      the start of the next row when it reaches `MaxColumns`. */
  function Advance(p: Position): (q: Position)
  {
    if p.col + 1 == MaxColumns then Position(p.row + 1, 0)
    else Position(p.row, p.col + 1)
  }

  /** Advancing the counters after placing index `i` gives the position of `i + 1`. */
  lemma AdvanceIsNextIndex(i: nat)
    ensures Advance(PositionOf(i)) == PositionOf(i + 1)
  {
  }

  /** The reference layout: index `i` of the list sits at `PositionOf(i)`. */
  function Layout(paths: seq<Path>): (grid: seq<Cell>)
  {
    seq(|paths|, i requires 0 <= i < |paths| => Cell(PositionOf(i), paths[i]))
  }

  /** What opening a path as an image does: it succeeds, raises a
      file-not-found error, or raises any other error (corrupt data, an
      unsupported format, no permission). */
  datatype ImageStatus = Readable | Missing | Unreadable

  /** Every path of the list opens as an image. */
  predicate AllReadable(paths: seq<Path>, probe: Path -> ImageStatus)
  {
    forall k :: 0 <= k < |paths| ==> probe(paths[k]) == Readable
  }

  /** The index of the first path that does not open, or `|paths|` when all do. */
  function FirstFailure(paths: seq<Path>, probe: Path -> ImageStatus): (n: nat)
    ensures n <= |paths|
    ensures forall k :: 0 <= k < n ==> probe(paths[k]) == Readable
    ensures n < |paths| ==> probe(paths[n]) != Readable
  {
    if paths == [] then 0
    else if probe(paths[0]) != Readable then 0
    else
      var n := FirstFailure(paths[1..], probe);
      assert forall k :: 1 <= k < |paths| ==> paths[k] == paths[1..][k - 1];
      1 + n
  }

  /** The thumbnails a render leaves on screen: those created before the
      first image that fails to open. */
  function Rendered(paths: seq<Path>, probe: Path -> ImageStatus): (grid: seq<Cell>)
  {
    Layout(paths)[..FirstFailure(paths, probe)]
  }

  /** The error a render raises, if any. */
  function Raised(paths: seq<Path>, probe: Path -> ImageStatus): (raised: Option<ImageStatus>)
  {
    var n := FirstFailure(paths, probe);
    if n < |paths| then Some(probe(paths[n])) else None
  }

  /** A render shows the whole layout and raises nothing exactly when every
      image opens. */
  lemma RenderedCompleteIffReadable(paths: seq<Path>, probe: Path -> ImageStatus)
    ensures Rendered(paths, probe) == Layout(paths) <==> AllReadable(paths, probe)
    ensures Raised(paths, probe).None? <==> AllReadable(paths, probe)
    ensures Raised(paths, probe).Some? ==> Raised(paths, probe).value != Readable
  {
    if !AllReadable(paths, probe) {
      assert |Rendered(paths, probe)| < |Layout(paths)|;
    }
  }

  /**
   Renders the gallery list into the grid frame. The previous children of the
   frame are all destroyed first, so the result does not depend on `frame`;
   then the list is walked in order with a row and a column counter, the
   column wrapping at `MaxColumns`. Each cell's click target is the path of
   the iteration that created it. `probe` says what opening each image does:
   the first one that does not open raises `raised`, which ends the render
   with the thumbnails created so far left on screen.
   */
  method DisplayImages(frame: seq<Cell>, paths: seq<Path>, probe: Path -> ImageStatus)
    returns (grid: seq<Cell>, raised: Option<ImageStatus>)
    ensures |grid| <= |paths|
    ensures forall i :: 0 <= i < |grid| ==>
              grid[i].path == paths[i]
              && grid[i].pos == Position(i / MaxColumns, i % MaxColumns)
              && grid[i].pos.col < MaxColumns
    ensures grid == Layout(paths)[..|grid|]
    ensures forall i :: 0 <= i < |grid| ==> probe(paths[i]) == Readable
    ensures raised.None? <==> |grid| == |paths|
    ensures raised.Some? ==> raised.value != Readable && raised.value == probe(paths[|grid|])
    ensures AllReadable(paths, probe) <==> grid == Layout(paths)
    ensures grid == Rendered(paths, probe) && raised == Raised(paths, probe)
  {
    grid := [];
    raised := None;
    var row: nat := 0;
    var col: nat := 0;
    var index := 0;
    while index < |paths|
      invariant index <= |paths|
      invariant |grid| == index
      invariant Position(row, col) == PositionOf(index)
      invariant forall k :: 0 <= k < index ==>
                  grid[k] == Cell(PositionOf(k), paths[k]) && probe(paths[k]) == Readable
    {
      var path := paths[index];
      var status := probe(path);
      if status != Readable {
        raised := Some(status);
        return;
      }
      grid := grid + [Cell(Position(row, col), path)];
      AdvanceIsNextIndex(index);
      col := col + 1;
      if col == MaxColumns {
        col := 0;
        row := row + 1;
      }
      index := index + 1;
    }
  }

  /** The path a primary click at grid position `at` hands to the detail
      viewer, or `None` when no thumbnail sits there. */
  function Click(grid: seq<Cell>, at: Position): (r: Option<Path>)
    ensures r.Some? ==> exists i :: 0 <= i < |grid| && grid[i] == Cell(at, r.value)
    ensures r.None? <==> forall i :: 0 <= i < |grid| ==> grid[i].pos != at
  {
    if grid == [] then None
    else if grid[0].pos == at then Some(grid[0].path)
    else
      var r := Click(grid[1..], at);
      assert forall i :: 1 <= i < |grid| ==> grid[i] == grid[1..][i - 1];
      r
  }

  /** Clicking the thumbnail of list index `i` opens exactly `paths[i]`. */
  lemma ClickOpensOwnPath(paths: seq<Path>, i: nat)
    requires i < |paths|
    ensures Click(Layout(paths), PositionOf(i)) == Some(paths[i])
  {
    var grid := Layout(paths);
    assert grid[i].pos == PositionOf(i);
    var r := Click(grid, PositionOf(i));
    var j :| 0 <= j < |grid| && grid[j] == Cell(PositionOf(i), r.value);
    PositionOfInjective(i, j);
  }

  /** A click on a position that holds no thumbnail opens nothing. */
  lemma ClickOutsideGrid(paths: seq<Path>, at: Position)
    requires at.col >= MaxColumns || IndexOf(at) >= |paths|
    ensures Click(Layout(paths), at) == None
  {
  }

  /** Number of cells of `grid` in row `row`. */
  function CountInRow(grid: seq<Cell>, row: nat): (count: nat)
  {
    if grid == [] then 0
    else CountInRow(grid[..|grid| - 1], row) + (if grid[|grid| - 1].pos.row == row then 1 else 0)
  }

  /** How many of `n` row-major cells fall into row `row`: full rows hold
      `MaxColumns`, the last row holds the remainder, later rows none. */
  function RowSize(n: nat, row: nat): (size: nat)
  {
    if (row + 1) * MaxColumns <= n then MaxColumns
    else if row * MaxColumns < n then n - row * MaxColumns
    else 0
  }

  /** Rendering a prefix of the list renders a prefix of the grid. */
  lemma LayoutPrefix(paths: seq<Path>, n: nat)
    requires n <= |paths|
    ensures Layout(paths)[..n] == Layout(paths[..n])
  {
  }

  /** Each row of a rendered grid holds exactly `RowSize` thumbnails. */
  lemma {:induction false} RowOccupancy(paths: seq<Path>, row: nat)
    ensures CountInRow(Layout(paths), row) == RowSize(|paths|, row)
  {
    var n := |paths|;
    if n > 0 {
      var grid := Layout(paths);
      LayoutPrefix(paths, n - 1);
      assert grid[..n - 1] == Layout(paths[..n - 1]);
      RowOccupancy(paths[..n - 1], row);
      var last := PositionOf(n - 1);
      assert grid[n - 1].pos == last;
      assert last.row * MaxColumns + last.col == n - 1;
    }
  }
}

=== FILE: viewer.dfy ===
/**
 The gallery window's state machine: one ordered list of image paths, the grid
 currently shown for it, and the persisted store that survives a restart.
 The file picker's answer, the store's contents and what opening each image
 does are inputs. The store is `None` when no saved file exists and
 `Some(list)` holding the last saved list otherwise.
 */
module ImageViewer {
  import opened Wrappers
  import opened Grid

  /** The persisted copy of the gallery list; `None` when no file was ever saved. */
  type Store = Option<seq<Path>>

  /** What opening each path as an image does at the time of an operation. */
  type Probe = Path -> ImageStatus

  /** The in-memory state of the window: the gallery list and the rendered grid. */
  datatype Viewer = Viewer(images: seq<Path>, grid: seq<Cell>)

  /** The grid on screen is exactly the rendering of the current list: same
      order, one cell per path, no stale cells. */
  predicate Consistent(v: Viewer)
  {
    v.grid == Layout(v.images)
  }

  /** The grid on screen is the rendering of an initial segment of the
      current list: a render that stopped at an image that did not open
      leaves the cells created before it, and nothing stale. */
  predicate ShowsPrefix(v: Viewer)
  {
    |v.grid| <= |v.images| && v.grid == Layout(v.images)[..|v.grid|]
  }

  /** Re-renders the grid from the current list, discarding every old cell. */
  function Display(v: Viewer, probe: Probe): (r: Viewer)
    ensures r.images == v.images
    ensures ShowsPrefix(r)
    ensures |r.grid| == FirstFailure(v.images, probe)
    ensures Consistent(r) <==> AllReadable(v.images, probe)
  {
    RenderedCompleteIffReadable(v.images, probe);
    v.(grid := Rendered(v.images, probe))
  }

  /** Rendering twice with an unchanged list gives the same grid as once;
      when every image opens, a viewer is left as it is exactly when it is
      consistent. */
  lemma DisplayIdempotent(v: Viewer, probe: Probe)
    ensures Display(Display(v, probe), probe) == Display(v, probe)
    ensures AllReadable(v.images, probe) ==> (Consistent(v) <==> Display(v, probe) == v)
  {
  }

  /** The window as constructed: an empty list and an empty grid frame. */
  function Initial(): (r: Viewer)
    ensures r.images == [] && r.grid == []
    ensures Consistent(r)
  {
    Viewer([], [])
  }

  /** Handles the picker's answer: a non-empty selection replaces the list
      wholesale, in picker order, and re-renders; a cancelled (empty) one
      changes nothing. The list is replaced before the render, so an image
      that fails to open leaves the new list with a partial grid. */
  function OpenImages(v: Viewer, picked: seq<Path>, probe: Probe): (r: Viewer)
    ensures |picked| > 0 ==> r.images == picked && ShowsPrefix(r)
    ensures |picked| > 0 ==> |r.grid| == FirstFailure(picked, probe)
    ensures |picked| > 0 ==> (Consistent(r) <==> AllReadable(picked, probe))
    ensures |picked| == 0 ==> r == v
  {
    if |picked| > 0 then Display(v.(images := picked), probe) else v
  }

  /** Writes the current list to the store, overwriting what it held: after
      a save the file exists and holds the list as it is on screen. */
  function SaveImages(v: Viewer): (store: Store)
    ensures store.Some? && store.value == v.images
  {
    Some(v.images)
  }

  /** The render of `saved` raises an error other than file-not-found. */
  predicate RaisesUncaught(saved: seq<Path>, probe: Probe)
  {
    var n := FirstFailure(saved, probe);
    n < |saved| && probe(saved[n]) == Unreadable
  }

  /** Reads the store: a saved list replaces the current one and is rendered.
      A missing file, and a missing image during that render, are both caught
      as file-not-found and leave no error; any other error escapes, which
      the result reports as `None`. */
  function LoadSavedImages(v: Viewer, store: Store, probe: Probe): (r: Option<Viewer>)
    ensures store.None? ==> r == Some(v)
    ensures store.Some? ==> (r.None? <==> RaisesUncaught(store.value, probe))
    ensures store.Some? && r.Some? ==>
              r.value.images == store.value && ShowsPrefix(r.value)
              && |r.value.grid| == FirstFailure(store.value, probe)
  {
    match store
    case None => Some(v)
    case Some(saved) =>
      var shown := Display(v.(images := saved), probe);
      if Raised(saved, probe) == Some(Unreadable) then None else Some(shown)
  }

  /** Construction of the window: the list starts empty, then the saved
      list is loaded if there is one. `None` means construction failed with
      an uncaught error. */
  function Startup(store: Store, probe: Probe): (r: Option<Viewer>)
    ensures store.None? ==> r == Some(Viewer([], []))
    ensures r.Some? ==> ShowsPrefix(r.value)
    ensures store.Some? ==> (r.None? <==> RaisesUncaught(store.value, probe))
    ensures store.Some? && r.Some? ==>
              r.value.images == store.value && |r.value.grid| == FirstFailure(store.value, probe)
    ensures store.Some? && AllReadable(store.value, probe) ==>
              r.Some? && r.value.images == store.value && Consistent(r.value)
  {
    LoadSavedImages(Initial(), store, probe)
  }

  /** A saved list whose image at index `k` is missing: startup keeps the
      whole list, shows the thumbnails before `k`, and raises nothing. */
  lemma MissingImageAtStartup(saved: seq<Path>, probe: Probe, k: nat)
    requires k < |saved|
    requires forall j :: 0 <= j < k ==> probe(saved[j]) == Readable
    requires probe(saved[k]) == Missing
    ensures Startup(Some(saved), probe) == Some(Viewer(saved, Layout(saved)[..k]))
  {
    assert FirstFailure(saved, probe) == k;
  }

  /** A saved list `a.png, gone.png, c.png` whose second file was deleted
      after the save: the startup list holds all three paths, only `a.png`
      is shown, and no error surfaces. */
  lemma DeletedImageScenario(probe: Probe)
    requires probe("a.png") == Readable && probe("gone.png") == Missing
    ensures Startup(Some(["a.png", "gone.png", "c.png"]), probe)
            == Some(Viewer(["a.png", "gone.png", "c.png"], [Cell(Position(0, 0), "a.png")]))
  {
    var saved := ["a.png", "gone.png", "c.png"];
    MissingImageAtStartup(saved, probe, 1);
    assert Layout(saved)[..1] == [Cell(PositionOf(0), "a.png")];
  }

  /** A saved list whose image at index `k` is corrupt: the error escapes
      and construction fails. */
  lemma UnreadableImageAtStartup(saved: seq<Path>, probe: Probe, k: nat)
    requires k < |saved|
    requires forall j :: 0 <= j < k ==> probe(saved[j]) == Readable
    requires probe(saved[k]) == Unreadable
    ensures Startup(Some(saved), probe) == None
  {
    assert FirstFailure(saved, probe) == k;
  }

  /** Saving and then starting afresh restores exactly the saved list, in
      order; when every image opens, it is fully rendered. */
  lemma SaveLoadRoundTrip(v: Viewer, probe: Probe)
    ensures Startup(SaveImages(v), probe).Some? ==> Startup(SaveImages(v), probe).value.images == v.images
    ensures AllReadable(v.images, probe) ==>
              Startup(SaveImages(v), probe) == Some(Viewer(v.images, Layout(v.images)))
  {
  }

  /** Whatever happened before, loading from the store after a save gives the
      saved list; no earlier list of the viewer leaks through. */
  lemma LoadAfterSave(v: Viewer, w: Viewer, probe: Probe)
    ensures LoadSavedImages(w, SaveImages(v), probe).Some? ==>
              LoadSavedImages(w, SaveImages(v), probe).value == Display(w.(images := v.images), probe)
              && LoadSavedImages(w, SaveImages(v), probe).value.images == v.images
  {
  }

  /** The user actions the window reacts to. `Restart` is the process
      exiting and being launched again: memory is lost, the store is kept. */
  datatype Event =
    | Pick(paths: seq<Path>, probe: Probe)
    | Save
    | ClickAt(at: Position)
    | Restart(probe: Probe)

  /** The application with its persisted store: a window on screen, or no
      process at all after a launch failed. */
  datatype App = Running(viewer: Viewer, store: Store) | Stopped(store: Store)

  /** A launch of the application against a store. */
  function Launch(store: Store, probe: Probe): (a: App)
    ensures a.store == store
    ensures a.Running? ==> ShowsPrefix(a.viewer)
    ensures store.None? ==> a == Running(Viewer([], []), None)
    ensures store.Some? ==> (a.Stopped? <==> RaisesUncaught(store.value, probe))
    ensures store.Some? && a.Running? ==>
              a.viewer.images == store.value && |a.viewer.grid| == FirstFailure(store.value, probe)
  {
    match Startup(store, probe)
    case Some(v) => Running(v, store)
    case None => Stopped(store)
  }

  /** Reaction to one event. With no window only a launch does anything. A
      click only opens a detail window, which touches neither the list nor
      the grid; an error raised by a picker-driven render is reported and the
      window stays up. */
  function Step(a: App, e: Event): (r: App)
    ensures !e.Save? ==> r.store == a.store
    ensures e.Save? ==> r == (if a.Running? then Running(a.viewer, Some(a.viewer.images)) else a)
    ensures e.ClickAt? ==> r == a
    ensures a.Stopped? && !e.Restart? ==> r == a
    ensures e.Pick? && a.Running? ==> r.Running? && r.viewer == OpenImages(a.viewer, e.paths, e.probe)
    ensures e.Restart? ==> r == Launch(a.store, e.probe)
  {
    match a
    case Stopped(store) =>
      (match e
       case Restart(probe) => Launch(store, probe)
       case _ => a)
    case Running(v, store) =>
      (match e
       case Pick(paths, probe) => Running(OpenImages(v, paths, probe), store)
       case Save => Running(v, SaveImages(v))
       case ClickAt(_) => a
       case Restart(probe) => Launch(store, probe))
  }

  /** The path whose detail window a click opens, if any. */
  function DetailOf(a: App, e: Event): (path: Option<Path>)
  {
    match e
    case ClickAt(at) => if a.Running? then Click(a.viewer.grid, at) else None
    case _ => None
  }

  /** Reaction to a sequence of events, first to last. */
  function Run(a: App, events: seq<Event>): (r: App)
    decreases |events|
  {
    if events == [] then a
    else Run(Step(a, events[0]), events[1..])
  }

  /** A window on screen shows no stale cell. */
  predicate Sound(a: App)
  {
    a.Running? ==> ShowsPrefix(a.viewer)
  }

  /** Every event keeps the grid a rendering of an initial segment of the list. */
  lemma StepKeepsSound(a: App, e: Event)
    requires Sound(a)
    ensures Sound(Step(a, e))
  {
  }

  /** From a sound start, no sequence of events ever shows a stale cell. */
  lemma {:induction false} RunKeepsSound(a: App, events: seq<Event>)
    requires Sound(a)
    ensures Sound(Run(a, events))
    decreases |events|
  {
    if events != [] {
      StepKeepsSound(a, events[0]);
      RunKeepsSound(Step(a, events[0]), events[1..]);
    }
  }

  /** Every image the event renders opens: the picked paths for a pick, the
      saved list for a restart. */
  predicate OpensListed(a: App, e: Event)
  {
    match e
    case Pick(paths, probe) => AllReadable(paths, probe)
    case Restart(probe) => a.store.Some? ==> AllReadable(a.store.value, probe)
    case _ => true
  }

  /** Every event of the sequence renders only images that open, each judged
      in the state the event meets. */
  predicate OpensListedAlong(a: App, events: seq<Event>)
    decreases |events|
  {
    events == [] || (OpensListed(a, events[0]) && OpensListedAlong(Step(a, events[0]), events[1..]))
  }

  /** When every image an event renders opens, the event keeps the window up
      and its grid equal to the rendering of the whole list. */
  lemma StepKeepsConsistent(a: App, e: Event)
    requires a.Running? && Consistent(a.viewer)
    requires OpensListed(a, e)
    ensures Step(a, e).Running? && Consistent(Step(a, e).viewer)
  {
  }

  /** When every image rendered along the way opens, no sequence of events
      ever brings the window down or shows a grid that differs from the
      rendering of the list. */
  lemma {:induction false} RunKeepsConsistent(a: App, events: seq<Event>)
    requires a.Running? && Consistent(a.viewer)
    requires OpensListedAlong(a, events)
    ensures Run(a, events).Running? && Consistent(Run(a, events).viewer)
    decreases |events|
  {
    if events != [] {
      StepKeepsConsistent(a, events[0]);
      RunKeepsConsistent(Step(a, events[0]), events[1..]);
    }
  }

  /** Running two sequences of events one after the other is running their
      concatenation. */
  lemma {:induction false} RunAppend(a: App, xs: seq<Event>, ys: seq<Event>)
    ensures Run(a, xs + ys) == Run(Run(a, xs), ys)
    decreases |xs|
  {
    if xs != [] {
      assert (xs + ys)[0] == xs[0];
      assert (xs + ys)[1..] == xs[1..] + ys;
      RunAppend(Step(a, xs[0]), xs[1..], ys);
    } else {
      assert xs + ys == ys;
    }
  }

  /** After any history that leaves a window up, saving and restarting
      brings back exactly the list that was on screen; when every image
      opens it is fully rendered. */
  lemma SaveThenRestartRestores(a: App, events: seq<Event>, probe: Probe)
    requires Run(a, events).Running?
    ensures var t, r := Run(a, events), Run(a, events + [Save, Restart(probe)]);
      && r.store == Some(t.viewer.images)
      && (r.Running? ==> r.viewer.images == t.viewer.images && ShowsPrefix(r.viewer))
      && (AllReadable(t.viewer.images, probe) ==>
            r == Running(Viewer(t.viewer.images, Layout(t.viewer.images)), Some(t.viewer.images)))
  {
    RunAppend(a, events, [Save, Restart(probe)]);
    var t := Run(a, events);
    assert Run(t, [Save, Restart(probe)]) == Run(Step(t, Save), [Restart(probe)]);
    assert Run(Step(t, Save), [Restart(probe)]) == Step(Step(t, Save), Restart(probe));
  }

  /** Clicks never change the list, the grid or the store. */
  lemma {:induction false} ClicksChangeNothing(a: App, events: seq<Event>)
    requires forall k :: 0 <= k < |events| ==> events[k].ClickAt?
    ensures Run(a, events) == a
    decreases |events|
  {
    if events != [] {
      ClicksChangeNothing(Step(a, events[0]), events[1..]);
    }
  }

  /** In a window that shows no stale cell, clicking the thumbnail of list
      index `i` opens the `i`-th path and nothing else. */
  lemma ClickShowsSelectedImage(a: App, i: nat)
    requires a.Running? && ShowsPrefix(a.viewer)
    requires i < |a.viewer.grid|
    ensures DetailOf(a, ClickAt(PositionOf(i))) == Some(a.viewer.images[i])
    ensures Step(a, ClickAt(PositionOf(i))) == a
  {
    var v := a.viewer;
    var n := |v.grid|;
    LayoutPrefix(v.images, n);
    ClickOpensOwnPath(v.images[..n], i);
  }

  /** A probe under which every image opens. */
  function AllOpen(p: Path): (status: ImageStatus)
  {
    Readable
  }

  /** Selecting four paths places them at (0,0), (0,1), (0,2) and (1,0); a
      click at (1,0) opens the fourth path; the grid is unchanged afterwards. */
  lemma FourImagesScenario(a: Path, b: Path, c: Path, d: Path)
    ensures var s := Step(Launch(None, AllOpen), Pick([a, b, c, d], AllOpen));
      && s.Running?
      && s.viewer.grid == [Cell(Position(0, 0), a), Cell(Position(0, 1), b),
                           Cell(Position(0, 2), c), Cell(Position(1, 0), d)]
      && DetailOf(s, ClickAt(Position(1, 0))) == Some(d)
      && Step(s, ClickAt(Position(1, 0))) == s
  {
    var s := Step(Launch(None, AllOpen), Pick([a, b, c, d], AllOpen));
    assert AllReadable([a, b, c, d], AllOpen);
    assert PositionOf(3) == Position(1, 0);
    ClickOpensOwnPath([a, b, c, d], 3);
  }

  /** A cancelled picker leaves the list and the grid exactly as before. */
  lemma CancelledPickChangesNothing(a: App, probe: Probe)
    ensures Step(a, Pick([], probe)) == a
  {
  }
}

=== FILE: wrappers.dfy ===
/** Optional values, used for the persisted store (absent file) and for clicks
    that land on no thumbnail. */
module Wrappers {

  datatype Option<+T> = None | Some(value: T)
}
